=== FILE: README.md ===
# Data layer of a Hikvision catalog portal, in Dafny

This project models the data layer of a product and software catalog portal.
The portal lists device models and software titles and lets visitors search them
and download their files (firmware, images, documents and videos). The modelled
part is small:

- the loaders that gather product and software records from a directory tree of
  JSON files;
- the searches, lookups and file-list defaulting over the loaded records;
- the product search endpoint, minus its HTTP transport;
- two display helpers of the file card, the size label and the date validation,
  plus the card's link fallback.

Everything is modelled as pure functions over immutable datatypes.

- **Directory tree.** The data directory is an abstract tree (`DataTree`).
  Each entry is a sub-directory, a regular file, some other kind of entry, or an
  entry `statSync` fails on. A directory whose listing fails is `Unlistable`.
  Each file node already carries what reading and parsing it gives:
  `ReadError`, `SyntaxError`, or the parsed JSON value (array, single object or
  scalar). This is how the model stands in for `fs` and `JSON.parse`.
- **One traversal, two loaders.** `DataTree.CollectListing` is the recursive
  loader. An `ObjectPolicy` selects the one difference between the two catalogs:
  the product loader ignores a file that holds a single object, and the software
  loader keeps that object as a record.
- **Catalog as a parameter.** Each `lib` function reloads the catalog on every
  call. The model instead passes the loaded sequence as a parameter.
- **JavaScript values.** `undefined` and `null` fields are `Option.None`.
  JavaScript truthiness of an optional string is `Text.Truthy` (present and not
  empty), and `a || b` is `Text.Or`. `toLowerCase` is ASCII lower-casing.
  `trim` removes the ECMAScript white-space and line-terminator code points.
- **Searches.** `Array.prototype.filter` is `Seqs.Filter`. Its contract is
  `Seqs.IsSelection`: the result keeps the input's order, holds only elements
  that pass, and holds every passing element as often as the input does.
  `Seqs.SelectionIsFilter` shows that this description fixes the result
  uniquely. Each search is therefore specified by the predicate it selects with:
  `Products.ProductSelected` and `Softwares.SoftwareSelected`.
- **Product search failure.** `searchProducts` calls `product.model.toLowerCase()`.
  This throws when a record has no `model` and the text filter is on. The model
  returns `Failure(MissingModel)` in that case. The endpoint turns it into
  status 500, as its `catch` block does.
- **Dates.** `formatDate` depends on the `Date` constructor and getters.
  `EcmaDate` models them at the granularity of days, following ECMA-262:
  DayFromYear (as a count of year lengths, proved equal to the standard's
  closed form), YearFromTime, MonthFromTime, DateFromTime, MakeDay, and the
  mapping of years 0 to 99 to 1900 to 1999 in section 21.4.2.1. It proves that
  `FieldsOfDay` and `MakeDay` are inverse on valid dates. The main result,
  `FileCard.FormatDate`, is stated against an independent reference: the
  Gregorian month lengths in `EcmaDate.DaysInMonth`. A string is accepted
  exactly when it has the `YYYY-MM-DD` shape, names a real date, and its year is
  100 or later.

A record's files come only from its own `files` field, each group defaulting to an empty
list; nothing merges category-level or global file lists.

## Model

| member | source | states |
|---|---|---|
| `DataTree.CollectListing` | lib/products.js:10-37 | `readJsonFilesRecursively` on one directory: an unlistable directory adds nothing, otherwise the records of its entries in listing order. Its properties are stated by the lemmas below. |
| `DataTree.CollectItems` | lib/softwares.js:14-36 | The loop over a directory's entries: sub-directories are entered, `.json` files add their records (arrays, and single objects under the software policy), other entries are skipped, and an entry `statSync` fails on ends the loop. |
| `DataTree.CollectAppend` | lib/products.js:14-33 | Entries are visited in listing order. When no entry of the first part fails `statSync`, the records of two consecutive runs of entries are those of the first run followed by those of the second. |
| `DataTree.SkippedFileContinues` | lib/products.js:21-31 | A file that fails to read or parse, holds no array, or is not named `.json` contributes nothing. The traversal goes on past it. |
| `DataTree.BrokenEntryStopsListing` | lib/products.js:12-36 | An entry `statSync` throws on ends the loop over its directory. Records gathered before it are kept; later entries of that directory contribute nothing. |
| `DataTree.CollectedListingIsProvided` | lib/products.js:10-37 | Soundness of loading: every gathered record belongs to a `.json` file somewhere below the directory. |
| `DataTree.ProvidedListingIsCollected` | lib/products.js:10-37 | Completeness of loading: when every directory can be listed and every entry stat'ed, every record of every `.json` file at any depth is gathered. |
| `DataTree.PoliciesAgreeOnListing` | lib/softwares.js:26-31 | The product loader's records are a subsequence of the software loader's records on the same tree. The two are equal when no `.json` file holds a single object. |
| `Products.GetAllProducts` | lib/products.js:42-65 | A missing directory gives no products. Every loaded product comes from an array in a `.json` file of the tree. On a healthy tree, every such product is loaded. |
| `Seqs.Filter` | lib/products.js:100-110 | `filter` keeps exactly the passing elements, in order, with their multiplicities. |
| `Seqs.SelectionIsFilter` | lib/products.js:96-112 | Anything that keeps exactly the passing elements, in order and with their multiplicities, equals the `filter` result. |
| `Seqs.SelectionCompose` | lib/products.js:99-110 | Filtering by one predicate and then by another selects by their conjunction. |
| `Products.SearchProducts` | lib/products.js:93-113 | The search fails exactly when the query has a non-blank character and some product lacks `model`. Otherwise it returns the products whose lower-cased model contains the untrimmed, lower-cased query (only when the trimmed query is non-empty) and whose category equals a given category other than `'Todas'`, case-sensitively. Order and multiplicity follow the catalog. With a blank query and no category, or `'Todas'`, the catalog comes back unchanged. |
| `Products.SearchIsOneFilter` | lib/products.js:96-112 | The two filters in a row equal one filter by the conjunction of the active conditions. |
| `Products.AllCategoriesMeansNoFilter` | lib/products.js:106 | The category `'Todas'` searches exactly like no category. |
| `Products.PaddedQueryIsNotTrimmed` | lib/products.js:99-102 | The query is trimmed only to decide whether to filter. For a product with model `DS2`, the query `ds` finds it, while ` ds` (leading space) switches the filter on and finds nothing. |
| `Products.GetProductByModel` | lib/products.js:71-74 | Returns the first product whose `model` equals the argument. Returns `None` exactly when no product has that model. |
| `Products.GetProductById` | lib/products.js:81-85 | Returns the first product whose `id` or `model` equals the argument. Returns `None` exactly when none does. The comment on this function says it searches by id first and then by model, but the code makes one pass that matches either field; the model follows the code. |
| `Products.ModelMatchBeforeIdMatch` | lib/products.js:83-84 | In the catalog `[{id: "a", model: "X"}, {id: "X"}]`, looking up `"X"` by id gives the first product, whose `id` is not `"X"`, although the second product has that `id`. An id-first search would give the second. |
| `Products.ByModelIsById` | lib/products.js:71-85 | When no product's `id` equals the string, looking it up by id gives the same result as looking it up by model. |
| `Products.ProductFiles` | lib/products.js:119-136 | All four groups are always present. Each group is the product's own list when `files` holds it, and empty otherwise. All four are empty when `files` is missing. |
| `Files.Normalise` | lib/softwares.js:121-130 | The shared defaulting of a `files` object into firmwares, images, documents and videos. |
| `Softwares.GetAllSoftwares` | lib/softwares.js:46-62 | A missing directory gives no software. Every loaded record comes from a `.json` file holding an array or a single object. On a healthy tree, every such record is loaded. |
| `Softwares.SearchSoftwares` | lib/softwares.js:70-104 | Returns the records, in order and with multiplicity, that pass both active filters. Category filter: when a category is given, the record's own category must be present and equal to it ignoring case; `'Todas'` is an ordinary value. Text filter: when the lower-cased, trimmed query is non-empty, it must occur in the lower-cased name (or title), description, version or category. An empty query with no category returns the list itself. |
| `Softwares.SearchIsOneFilter` | lib/softwares.js:79-103 | The search equals one filter by the conjunction of the active conditions. |
| `Softwares.NeedleBlankIffQueryBlank` | lib/softwares.js:77-89 | Lower-casing before trimming does not change whether the query is blank, so the software text filter is on exactly when the query has a non-white-space character, the test `query.trim()` makes for products. |
| `Softwares.BlankQueryIsNoQuery` | lib/softwares.js:77-89 | A query that is blank after lower-casing and trimming searches exactly like the empty query. |
| `Softwares.CategoryIgnoresCase` | lib/softwares.js:82-86 | Searching with a category gives the same records as searching with its lower-case spelling. |
| `Softwares.AllCategoriesIsOrdinary` | lib/softwares.js:82-86 | `'Todas'` does not switch the software category filter off. A record filed under `NVR` is dropped by a search for category `Todas`. |
| `Softwares.GetSoftwareById` | lib/softwares.js:111-114 | Returns the first record whose `id`, `name` or `title` equals the argument. Returns `None` exactly when none does. |
| `Softwares.SoftwareFiles` | lib/softwares.js:121-130 | All four groups are always present, each defaulting to empty. All four are empty when `files` is missing. |
| `ProductSearchApi.CountFiles` | pages/api/products/search.js:17-27 | Each count is the length of the corresponding normalised group. `totalDocuments` is documents plus videos. Images are not counted. |
| `ProductSearchApi.WithCounts` | pages/api/products/search.js:17-28 | Every product is kept, in order and unchanged, and is paired with its counts. |
| `ProductSearchApi.Handle` | pages/api/products/search.js:5-46 | A method other than GET gives 405 with `success: false`. For a GET: status 200 exactly when `searchProducts` returns (both directions; catalog elements are records, see the `null` line under Left out), and 500 with the fixed error message when it throws. A 200 body lists the search result for `q` or `''` and the raw `category`, in order. `total` equals the number of listed products. The body echoes `q` or `''`, and `category` or `'Todas'`. Every product carries counts consistent with its files. |
| `ProductSearchApi.ResponseListsSelection` | pages/api/products/search.js:14-35 | For a GET that succeeds, the products of the response are exactly the catalog's selected products, in order and with multiplicity. |
| `EcmaDate.DayFromYearIsEcma` | components/FileCard.js:183-187 | Counting year lengths from 1970 gives the closed form of DayFromYear in ECMA-262: `365*(y-1970) + floor((y-1969)/4) - floor((y-1901)/100) + floor((y-1601)/400)`. |
| `EcmaDate.EcmaDayFromYearStep` | components/FileCard.js:183-187 | In that closed form, consecutive years' first days are 366 days apart in Gregorian leap years and 365 otherwise. |
| `EcmaDate.MonthStartTable` | components/FileCard.js:186-187 | The running sums of the Gregorian month lengths are the thresholds 0, 31, 59, 90, …, 334, 365 that MonthFromTime and DateFromTime use, each shifted by one from March on in leap years. |
| `EcmaDate.MakeDayInjective` | components/FileCard.js:183-187 | Two valid year, month and date triples that MakeDay maps to the same day are equal. |
| `EcmaDate.YearFromDay` | components/FileCard.js:185 | `getFullYear` gives the unique year whose days include the given day. |
| `EcmaDate.FieldsOfDay` | components/FileCard.js:184-188 | The getters always give a month from 0 to 11 and a date within that month's Gregorian length. Applying MakeDay to those fields gives back the same day. |
| `EcmaDate.FieldsOfMakeDay` | components/FileCard.js:183-188 | A valid year, month and date read back unchanged through MakeDay and the getters. |
| `EcmaDate.TwoDigitYearMovesOn` | components/FileCard.js:183-185 | For a month index 0 to 11 and a date of at least 1, `new Date(y, m, d)` with a year from 0 to 99 yields a year at least 1900 later. |
| `EcmaDate.ConstructorRoundTrip` | components/FileCard.js:183-190 | `new Date(y, m, d)` read back through the getters gives the same year, month and date exactly when they form a valid date, the year is outside 0 to 99, and the day lies within TimeClip's range of 100,000,000 days either side of 1970. Outside that range the `Date` is invalid and the getters give `NaN`. |
| `EcmaDate.SmallFieldsInRange` | components/FileCard.js:176-183 | Every date built from a four-digit year and two-digit month and date fields lies within TimeClip's range, so the validation never meets an invalid `Date`. |
| `FileCard.FormatDate` | components/FileCard.js:169-193 | The result is `null` for a missing or empty value and for anything not matching `^\d{4}-\d{2}-\d{2}$`. A matching string is accepted exactly when its month is 1 to 12, its day is within that month's Gregorian length, and its year is at least 100. The accepted date is the parsed one. |
| `FileCard.IsoText` | components/FileCard.js:173-179 | A zero-padded `YYYY-MM-DD` text matches the pattern and parses back to its date. |
| `Decimal.PaddedDigits` | components/FileCard.js:176-179 | Reading back the zero-padded digits of a number with `parseInt` gives the number. |
| `Decimal.NatToDecimal` | components/FileCard.js:164 | The numeral `String(n)` writes has no leading zero and reads back as `n`. |
| `FileCard.FormatFileSize` | components/FileCard.js:162-167 | Each size gets exactly one label: a missing size or 0 gives `'-'`; other sizes below 1024 give bytes; sizes in [1024, 1048576) give KB, with an amount in [1, 1024); sizes of 1048576 or more give MB, with an amount of at least 1. Each amount times its unit equals the size. |
| `FileCard.ByteLabelReadsBack` | components/FileCard.js:164 | For sizes 1 to 1023, the byte label is a numeral without leading zeros followed by `' B'`, and the numeral reads back as the size. |
| `FileCard.DownloadLink` | components/FileCard.js:196 | The link is never empty. It is `downloadUrl` when truthy, else `url` when truthy, else `'#'`. |
| `FileCard.Card` | components/FileCard.js:251-270 | The title is `file.name`, and the size label is `formatFileSize(file.size)`, so it is `'-'` exactly when the size is missing or 0. A falsy date shows nothing. Otherwise a date is shown exactly when `formatDate` accepts it: a `YYYY-MM-DD` value naming a real date from year 100 on. The shown date is the parsed one. The link is `downloadUrl` when truthy, else `url` when truthy, else `'#'`. |
| `FileCard.CardShowsIsoDate` | components/FileCard.js:251 | A file dated with a real date from year 100 to 9999, written `YYYY-MM-DD`, shows exactly that date. |
| `Text.Trim` | lib/products.js:99 | `trim` removes only leading and trailing white space: the result is a slice `s[k..e]` with only white space before `k` and from `e` on. It is empty exactly when the string is all white space; otherwise it starts and ends with a non-space character. |
| `Text.Lower` | lib/softwares.js:77 | `toLowerCase` keeps the length and lower-cases each character on its own; only the ASCII letters A to Z change. |
| `Seqs.Find` | lib/softwares.js:113 | `find` returns `None` exactly when no element passes. Otherwise it returns the element at the first passing position. |

## Left out

- Real filesystem calls, `process.cwd()` and path joining. The directory is an abstract tree. Reading and parsing are outcomes stored in the tree.
- `GetAllProducts`: the legacy `data/products.json` fallback, used when `data/products` does not exist. The model returns no products in that case, the outcome when the legacy file is also absent.
- `console.error` logging, and the `details` field of the 500 response.
- JSON array elements are taken to be records. An element that is not an object is not distinguished from a record whose fields are all missing. In particular, a `null` element is not modelled. Every field access on `null` throws in the source, so with such an element the lookups, the searches' filters and the endpoint's file counts fail (the endpoint answers 500), while the model treats it as an empty record.
- Record fields are strings or missing. A non-string `id`, `model`, `name` or `category`, such as a number, is not modelled. Neither are the exceptions `toLowerCase` would raise on such values.
- Query parameters are single strings or missing. The array a repeated query parameter would produce is not modelled.
- Text.Lower: Unicode case mapping is not modelled; only the ASCII letters A to Z are lower-cased, because the full Unicode tables are outside the model.
- `FormatFileSize`: only the unit and the exact amount are modelled. The `toFixed(1)` rounding and the text of the KB and MB labels are not. Sizes are integers; fractional sizes, `NaN`, and the exponent notation `String` uses from 10^21 on are not modelled.
- `FormatDate`: the `pt-BR` text of `toLocaleDateString` is left out; the model returns the date that would be rendered. Local time is assumed to be consistent: time zones and daylight-saving shifts are not modelled, and dates are whole day numbers rather than milliseconds. TimeClip's range is therefore applied to whole day numbers, without the few hours a time-zone offset moves its edges.
- All React rendering, state hooks, timers, the clipboard helpers (`copyFormattedLink`, `copyToClipboardFallback`) and icon selection of the file card.
- The software search endpoint (pages/api/softwares/search.js) has the product endpoint's shape without the file counts: 405 for other methods, `total`, the echoed `q || ''` and `category || 'Todas'`, and 500 when the search throws. It is not modelled. Page components, the search section's URL building, and the build configuration are presentation or glue and are not part of this model.

=== FILE: data_tree.dfy ===
/** A directory tree of JSON data files, as the catalog loaders see it, and the
    recursive traversal that gathers records from it. The outcome of reading
    and parsing each file is part of the tree, so the traversal itself is pure. */
module DataTree {
  import opened Text
  import opened Seqs

  /** What `JSON.parse` produced for a file. */
  datatype Parsed<R> =
    | JsonArray(elements: seq<R>)
    | JsonObject(record: R)        // a non-null object that is not an array
    | JsonScalar                   // null, a number, a string or a boolean

  /** What reading a file and parsing it as JSON gives. */
  datatype FileData<R> =
    | ReadError                    // `readFileSync` throws
    | SyntaxError                  // `JSON.parse` throws
    | Json(value: Parsed<R>)

  /** One entry of a directory listing, as `statSync` classifies it. */
  datatype Node<R> =
    | Directory(name: string, listing: Listing<R>)
    | RegularFile(name: string, data: FileData<R>)
    | OtherEntry(name: string)     // neither a file nor a directory
    | BrokenEntry(name: string)    // `statSync` throws, e.g. a dangling link

  /** The result of `readdirSync` on a directory: its entries in listing order,
      or a failure. */
  datatype Listing<R> = Entries(items: seq<Node<R>>) | Unlistable

  /** Whether a file holding one JSON object contributes that object. */
  datatype ObjectPolicy = DropObjects | KeepObjects

  predicate IsJsonName(name: string) {
    EndsWith(name, ".json")
  }

  /** The records one `.json` file contributes: the elements of an array, the
      object itself when the policy keeps objects, nothing otherwise. */
  function FileRecords<R>(data: FileData<R>, policy: ObjectPolicy): seq<R> {
    match data
    case Json(JsonArray(xs)) => xs
    case Json(JsonObject(x)) => if policy == KeepObjects then [x] else []
    case _ => []
  }

  /** `readJsonFilesRecursively` on a directory: nothing if it cannot be listed. */
  function CollectListing<R>(l: Listing<R>, policy: ObjectPolicy): seq<R>
    decreases l
  {
    match l
    case Unlistable => []
    case Entries(items) => CollectItems(items, policy)
  }

  /** The loop over a directory's entries. Sub-directories are entered; a file
      counts only when its name ends in `.json`; an entry `statSync` fails on
      ends the loop, keeping what was gathered before it. */
  function CollectItems<R>(items: seq<Node<R>>, policy: ObjectPolicy): seq<R>
    decreases items
  {
    if items == [] then []
    else
      match items[0]
      case BrokenEntry(_) => []
      case OtherEntry(_) => CollectItems(items[1..], policy)
      case Directory(_, l) => CollectListing(l, policy) + CollectItems(items[1..], policy)
      case RegularFile(name, data) =>
        (if IsJsonName(name) then FileRecords(data, policy) else [])
        + CollectItems(items[1..], policy)
  }

  /** No entry in the list is one `statSync` fails on. */
  predicate AllStatable<R>(items: seq<Node<R>>) {
    forall i :: 0 <= i < |items| ==> !items[i].BrokenEntry?
  }

  /** Every directory in the tree can be listed and every entry can be stat'ed. */
  predicate HealthyListing<R>(l: Listing<R>)
    decreases l
  {
    match l
    case Unlistable => false
    case Entries(items) => forall i :: 0 <= i < |items| ==> HealthyNode(items[i])
  }

  predicate HealthyNode<R>(n: Node<R>)
    decreases n
  {
    match n
    case Directory(_, l) => HealthyListing(l)
    case BrokenEntry(_) => false
    case _ => true
  }

  /** `x` is a record of some `.json` file at any depth below the node. */
  ghost predicate NodeProvides<R>(n: Node<R>, x: R, policy: ObjectPolicy)
    decreases n
  {
    match n
    case Directory(_, l) => ListingProvides(l, x, policy)
    case RegularFile(name, data) => IsJsonName(name) && x in FileRecords(data, policy)
    case _ => false
  }

  ghost predicate ListingProvides<R>(l: Listing<R>, x: R, policy: ObjectPolicy)
    decreases l
  {
    match l
    case Unlistable => false
    case Entries(items) => ItemsProvide(items, x, policy)
  }

  ghost predicate ItemsProvide<R>(items: seq<Node<R>>, x: R, policy: ObjectPolicy)
    decreases items
  {
    exists i :: 0 <= i < |items| && NodeProvides(items[i], x, policy)
  }

  /** The loop visits the entries in listing order: when the first part has no
      entry that stops it, the records are those of the first part followed by
      those of the second. */
  lemma {:induction false} CollectAppend<R>(a: seq<Node<R>>, b: seq<Node<R>>, policy: ObjectPolicy)
    requires AllStatable(a)
    ensures CollectItems(a + b, policy) == CollectItems(a, policy) + CollectItems(b, policy)
    decreases |a|
  {
    if a != [] {
      assert (a + b)[0] == a[0];
      assert (a + b)[1..] == a[1..] + b;
      CollectAppend(a[1..], b, policy);
    } else {
      assert a + b == b;
    }
  }

  /** A file that fails to read or parse, holds no array (or no kept object),
      or is not named `.json` contributes nothing, and the loop goes on past it. */
  lemma SkippedFileContinues<R>(a: seq<Node<R>>, name: string, data: FileData<R>,
                                b: seq<Node<R>>, policy: ObjectPolicy)
    requires AllStatable(a)
    requires !IsJsonName(name) || FileRecords(data, policy) == []
    ensures CollectItems(a + [RegularFile(name, data)] + b, policy) == CollectItems(a + b, policy)
  {
    var tail := [RegularFile(name, data)] + b;
    assert a + [RegularFile(name, data)] + b == a + tail;
    CollectAppend(a, tail, policy);
    CollectAppend(a, b, policy);
    assert tail[1..] == b;
  }

  /** An entry `statSync` fails on ends the directory's loop: the entries after
      it contribute nothing, the ones before it keep their records. */
  lemma BrokenEntryStopsListing<R>(a: seq<Node<R>>, name: string, b: seq<Node<R>>, policy: ObjectPolicy)
    requires AllStatable(a)
    ensures CollectItems(a + [BrokenEntry(name)] + b, policy) == CollectItems(a, policy)
  {
    var tail := [BrokenEntry(name)] + b;
    assert a + [BrokenEntry(name)] + b == a + tail;
    CollectAppend(a, tail, policy);
  }

  /** Soundness: every gathered record comes from a `.json` file in the tree. */
  lemma {:induction false} CollectedListingIsProvided<R>(l: Listing<R>, x: R, policy: ObjectPolicy)
    requires x in CollectListing(l, policy)
    ensures ListingProvides(l, x, policy)
    decreases l
  {
    CollectedItemsAreProvided(l.items, x, policy);
  }

  lemma {:induction false} CollectedItemsAreProvided<R>(items: seq<Node<R>>, x: R, policy: ObjectPolicy)
    requires x in CollectItems(items, policy)
    ensures ItemsProvide(items, x, policy)
    decreases items
  {
    var rest := CollectItems(items[1..], policy);
    match items[0]
    case OtherEntry(_) =>
      CollectedItemsAreProvided(items[1..], x, policy);
      ShiftProvider(items, x, policy);
    case Directory(_, l) =>
      if x in CollectListing(l, policy) {
        CollectedListingIsProvided(l, x, policy);
        assert NodeProvides(items[0], x, policy);
      } else {
        CollectedItemsAreProvided(items[1..], x, policy);
        ShiftProvider(items, x, policy);
      }
    case RegularFile(name, data) =>
      if IsJsonName(name) && x in FileRecords(data, policy) {
        assert NodeProvides(items[0], x, policy);
      } else {
        CollectedItemsAreProvided(items[1..], x, policy);
        ShiftProvider(items, x, policy);
      }
  }

  /** A provider among the later entries is a provider of the whole list. */
  lemma ShiftProvider<R>(items: seq<Node<R>>, x: R, policy: ObjectPolicy)
    requires items != [] && ItemsProvide(items[1..], x, policy)
    ensures ItemsProvide(items, x, policy)
  {
    var i :| 0 <= i < |items[1..]| && NodeProvides(items[1..][i], x, policy);
    assert NodeProvides(items[i + 1], x, policy);
  }

  /** Completeness: in a tree where every directory can be listed and every entry
      stat'ed, every record of every `.json` file at any depth is gathered. */
  lemma {:induction false} ProvidedListingIsCollected<R>(l: Listing<R>, x: R, policy: ObjectPolicy)
    requires HealthyListing(l) && ListingProvides(l, x, policy)
    ensures x in CollectListing(l, policy)
    decreases l
  {
    ProvidedItemsAreCollected(l.items, x, policy);
  }

  lemma {:induction false} ProvidedItemsAreCollected<R>(items: seq<Node<R>>, x: R, policy: ObjectPolicy)
    requires forall i :: 0 <= i < |items| ==> HealthyNode(items[i])
    requires ItemsProvide(items, x, policy)
    ensures x in CollectItems(items, policy)
    decreases items
  {
    var i :| 0 <= i < |items| && NodeProvides(items[i], x, policy);
    if i == 0 {
      match items[0]
      case Directory(_, l) =>
        ProvidedListingIsCollected(l, x, policy);
      case RegularFile(_, _) =>
    } else {
      assert NodeProvides(items[1..][i - 1], x, policy);
      ProvidedItemsAreCollected(items[1..], x, policy);
      assert HealthyNode(items[0]);
    }
  }

  /** No `.json` file at any depth below holds a single JSON object. */
  predicate ObjectFreeListing<R>(l: Listing<R>)
    decreases l
  {
    match l
    case Unlistable => true
    case Entries(items) => forall i :: 0 <= i < |items| ==> ObjectFreeNode(items[i])
  }

  predicate ObjectFreeNode<R>(n: Node<R>)
    decreases n
  {
    match n
    case Directory(_, l) => ObjectFreeListing(l)
    case RegularFile(name, data) => !(IsJsonName(name) && data.Json? && data.value.JsonObject?)
    case _ => true
  }

  /** Dropping single-object files only deletes records: what is gathered under
      `DropObjects` is a subsequence of what is gathered under `KeepObjects`,
      and the two agree on a tree without single-object files. */
  lemma {:induction false} PoliciesAgreeOnListing<R>(l: Listing<R>)
    ensures IsSubsequence(CollectListing(l, DropObjects), CollectListing(l, KeepObjects))
    ensures ObjectFreeListing(l) ==> CollectListing(l, DropObjects) == CollectListing(l, KeepObjects)
    decreases l
  {
    if l.Entries? {
      PoliciesAgreeOnItems(l.items);
    }
  }

  lemma {:induction false} PoliciesAgreeOnItems<R>(items: seq<Node<R>>)
    ensures IsSubsequence(CollectItems(items, DropObjects), CollectItems(items, KeepObjects))
    ensures (forall i :: 0 <= i < |items| ==> ObjectFreeNode(items[i]))
              ==> CollectItems(items, DropObjects) == CollectItems(items, KeepObjects)
    decreases items
  {
    if items != [] {
      PoliciesAgreeOnItems(items[1..]);
      var restDrop := CollectItems(items[1..], DropObjects);
      var restKeep := CollectItems(items[1..], KeepObjects);
      assert (forall i :: 0 <= i < |items| ==> ObjectFreeNode(items[i]))
          ==> forall i :: 0 <= i < |items[1..]| ==> ObjectFreeNode(items[1..][i]) by {
        if forall i :: 0 <= i < |items| ==> ObjectFreeNode(items[i]) {
          forall i | 0 <= i < |items[1..]| ensures ObjectFreeNode(items[1..][i]) {
            assert items[1..][i] == items[i + 1];
          }
        }
      }
      match items[0]
      case BrokenEntry(_) =>
      case OtherEntry(_) =>
      case Directory(_, l) =>
        PoliciesAgreeOnListing(l);
        SubsequenceConcat(CollectListing(l, DropObjects), CollectListing(l, KeepObjects), restDrop, restKeep);
      case RegularFile(name, data) =>
        var drop := if IsJsonName(name) then FileRecords(data, DropObjects) else [];
        var keep := if IsJsonName(name) then FileRecords(data, KeepObjects) else [];
        if drop == keep {
          SubsequenceReflexive(drop);
        }
        SubsequenceConcat(drop, keep, restDrop, restKeep);
    }
  }
}

=== FILE: decimal.dfy ===
/** Decimal numerals: the digit strings `parseInt` reads and `String(n)` writes. */
module Decimal {

  predicate IsDigit(c: char) {
    '0' <= c <= '9'
  }

  predicate AllDigits(s: string) {
    forall i :: 0 <= i < |s| ==> IsDigit(s[i])
  }

  function DigitChar(d: nat): (c: char)
    requires d < 10
    ensures IsDigit(c)
  {
    ('0' as int + d) as char
  }

  function Pow10(n: nat): (p: nat)
    ensures p >= 1
  {
    if n == 0 then 1 else 10 * Pow10(n - 1)
  }

  /** `parseInt(s, 10)` of a string made only of decimal digits: the digits read
      most significant first. */
  function DigitsValue(s: string): (n: nat)
    requires AllDigits(s)
    ensures n < Pow10(|s|)
    decreases |s|
  {
    if s == [] then 0
    else DigitsValue(s[..|s| - 1]) * 10 + (s[|s| - 1] as int - '0' as int)
  }

  /** `n` written with exactly `width` digits, padded on the left with zeros;
      reading the digits back gives `n`. */
  function PaddedDigits(n: nat, width: nat): (s: string)
    requires n < Pow10(width)
    ensures |s| == width && AllDigits(s)
    ensures DigitsValue(s) == n
    decreases width
  {
    if width == 0 then []
    else
      var front := PaddedDigits(n / 10, width - 1);
      var s := front + [DigitChar(n % 10)];
      assert s[..|s| - 1] == front;
      s
  }

  /** `String(n)` for a non-negative integer: its decimal numeral without
      leading zeros; reading the digits back gives `n`. */
  function NatToDecimal(n: nat): (s: string)
    ensures 1 <= |s| && AllDigits(s)
    ensures DigitsValue(s) == n
    ensures s[0] == '0' ==> n == 0 && |s| == 1
    decreases n
  {
    if n < 10 then [DigitChar(n)]
    else
      var front := NatToDecimal(n / 10);
      var s := front + [DigitChar(n % 10)];
      assert s[..|s| - 1] == front;
      s
  }

  /** `String(i)` for an integer: a minus sign in front of negative numbers. */
  function IntToDecimal(i: int): string {
    if i < 0 then "-" + NatToDecimal(-i) else NatToDecimal(i)
  }
}

=== FILE: ecma_date.dfy ===
/** The calendar arithmetic of ECMAScript `Date` objects (ECMA-262, section
    21.4.1), at the granularity of whole days: day numbers count days from
    1 January 1970, and the getters recover year, month and date from them. */
module EcmaDate {
  import opened Wrappers

  /** InLeapYear: the Gregorian rule. */
  predicate IsLeapYear(y: int) {
    y % 4 == 0 && (y % 100 != 0 || y % 400 == 0)
  }

  function DaysInYear(y: int): int {
    if IsLeapYear(y) then 366 else 365
  }

  /** DayFromYear: the day number of 1 January of year `y`, counted by whole
      year lengths away from 1970. */
  function DayFromYear(y: int): int
    decreases if y >= 1970 then y - 1970 else 1970 - y
  {
    if y == 1970 then 0
    else if y > 1970 then DayFromYear(y - 1) + DaysInYear(y - 1)
    else DayFromYear(y + 1) - DaysInYear(y)
  }

  /** The closed form the standard gives for DayFromYear. Dafny's `/` on a
      positive divisor is the floor the standard uses. */
  function EcmaDayFromYear(y: int): int {
    365 * (y - 1970) + (y - 1969) / 4 - (y - 1901) / 100 + (y - 1601) / 400
  }

  /** Each of the three corrections of the closed form grows by one exactly at
      a multiple of its period. */
  lemma EveryFourYears(y: int)
    ensures (y - 1968) / 4 - (y - 1969) / 4 == if y % 4 == 0 then 1 else 0
  {
  }

  lemma EveryHundredYears(y: int)
    ensures (y - 1900) / 100 - (y - 1901) / 100 == if y % 100 == 0 then 1 else 0
  {
  }

  lemma EveryFourHundredYears(y: int)
    ensures (y - 1600) / 400 - (y - 1601) / 400 == if y % 400 == 0 then 1 else 0
  {
  }

  lemma CenturyIsFourYears(y: int)
    requires y % 100 == 0
    ensures y % 4 == 0
  {
    var k := y / 100;
    assert y == 4 * (25 * k);
  }

  lemma FourCenturiesIsCentury(y: int)
    requires y % 400 == 0
    ensures y % 100 == 0
  {
    var k := y / 400;
    assert y == 100 * (4 * k);
  }

  /** The three corrections together add the leap day of the Gregorian rule. */
  lemma LeapCorrection(y: int)
    ensures (if y % 4 == 0 then 1 else 0) - (if y % 100 == 0 then 1 else 0)
            + (if y % 400 == 0 then 1 else 0) == DaysInYear(y) - 365
  {
    if y % 400 == 0 {
      FourCenturiesIsCentury(y);
    }
    if y % 100 == 0 {
      CenturyIsFourYears(y);
    }
  }

  /** The closed form grows by the length of each year. */
  lemma EcmaDayFromYearStep(y: int)
    ensures EcmaDayFromYear(y + 1) == EcmaDayFromYear(y) + DaysInYear(y)
  {
    EveryFourYears(y);
    EveryHundredYears(y);
    EveryFourHundredYears(y);
    LeapCorrection(y);
  }

  /** Counting year lengths from 1970 gives the standard's closed form. */
  lemma {:induction false} DayFromYearIsEcma(y: int)
    ensures DayFromYear(y) == EcmaDayFromYear(y)
    decreases if y >= 1970 then y - 1970 else 1970 - y
  {
    if y > 1970 {
      DayFromYearIsEcma(y - 1);
      EcmaDayFromYearStep(y - 1);
    } else if y < 1970 {
      DayFromYearIsEcma(y + 1);
      EcmaDayFromYearStep(y);
    }
  }

  /** A year is as long as the distance between its first day and the next
      year's first day. */
  lemma DayFromYearStep(y: int)
    ensures DayFromYear(y + 1) == DayFromYear(y) + DaysInYear(y)
  {
  }

  /** Later years start later. */
  lemma {:induction false} DayFromYearMonotone(a: int, b: int)
    requires a <= b
    ensures DayFromYear(a) <= DayFromYear(b)
    decreases b - a
  {
    if a < b {
      DayFromYearStep(a);
      DayFromYearMonotone(a + 1, b);
    }
  }

  function YearAtOrAfter(y: int, day: int): (r: int)
    requires DayFromYear(y) <= day
    ensures y <= r && DayFromYear(r) <= day < DayFromYear(r + 1)
    decreases day - DayFromYear(y)
  {
    DayFromYearStep(y);
    if DayFromYear(y + 1) <= day then YearAtOrAfter(y + 1, day) else y
  }

  function YearAtOrBefore(y: int, day: int): (r: int)
    requires day < DayFromYear(y + 1)
    ensures r <= y && DayFromYear(r) <= day < DayFromYear(r + 1)
    decreases DayFromYear(y + 1) - day
  {
    DayFromYearStep(y);
    if DayFromYear(y) <= day then y else YearAtOrBefore(y - 1, day)
  }

  /** YearFromTime: the largest year whose first day is not after `day`. */
  function YearFromDay(day: int): (r: int)
    ensures DayFromYear(r) <= day < DayFromYear(r + 1)
  {
    if DayFromYear(1970) <= day then YearAtOrAfter(1970, day) else YearAtOrBefore(1969, day)
  }

  /** There is only one year whose days include `day`. */
  lemma YearFromDayUnique(day: int, y: int)
    requires DayFromYear(y) <= day < DayFromYear(y + 1)
    ensures YearFromDay(day) == y
  {
    var r := YearFromDay(day);
    if r < y {
      DayFromYearMonotone(r + 1, y);
    } else if r > y {
      DayFromYearMonotone(y + 1, r);
    }
  }

  /** The Gregorian month lengths, months numbered from 1. */
  function DaysInMonth(y: int, month: int): int
    requires 1 <= month <= 12
  {
    if month == 2 then (if IsLeapYear(y) then 29 else 28)
    else if month == 4 || month == 6 || month == 9 || month == 11 then 30
    else 31
  }

  /** The number of days of year `y` before month `m` (0 = January, 12 = the
      end of the year): the running sums of the month lengths. */
  function MonthStart(y: int, m: int): int
    requires 0 <= m <= 12
  {
    if m == 0 then 0 else MonthStart(y, m - 1) + DaysInMonth(y, m)
  }

  /** The running sums are the thresholds MonthFromTime and DateFromTime use. */
  lemma MonthStartTable(y: int)
    ensures var leap := if IsLeapYear(y) then 1 else 0;
      && MonthStart(y, 0) == 0 && MonthStart(y, 1) == 31
      && MonthStart(y, 2) == 59 + leap && MonthStart(y, 3) == 90 + leap
      && MonthStart(y, 4) == 120 + leap && MonthStart(y, 5) == 151 + leap
      && MonthStart(y, 6) == 181 + leap && MonthStart(y, 7) == 212 + leap
      && MonthStart(y, 8) == 243 + leap && MonthStart(y, 9) == 273 + leap
      && MonthStart(y, 10) == 304 + leap && MonthStart(y, 11) == 334 + leap
      && MonthStart(y, 12) == 365 + leap
  {
    var leap := if IsLeapYear(y) then 1 else 0;
    assert MonthStart(y, 1) == 31;
    assert MonthStart(y, 2) == 59 + leap;
    assert MonthStart(y, 3) == 90 + leap;
    assert MonthStart(y, 4) == 120 + leap;
    assert MonthStart(y, 5) == 151 + leap;
    assert MonthStart(y, 6) == 181 + leap;
    assert MonthStart(y, 7) == 212 + leap;
    assert MonthStart(y, 8) == 243 + leap;
    assert MonthStart(y, 9) == 273 + leap;
    assert MonthStart(y, 10) == 304 + leap;
    assert MonthStart(y, 11) == 334 + leap;
  }

  /** Each threshold is the previous one plus the month's length. */
  lemma MonthLength(y: int, m: int)
    requires 0 <= m < 12
    ensures MonthStart(y, m + 1) == MonthStart(y, m) + DaysInMonth(y, m + 1)
  {
  }

  /** The last threshold is the length of the year. */
  lemma MonthsFillYear(y: int)
    ensures MonthStart(y, 12) == DaysInYear(y)
  {
    MonthStartTable(y);
  }

  /** Earlier months start earlier. */
  lemma {:induction false} MonthStartMonotone(y: int, a: int, b: int)
    requires 0 <= a <= b <= 12
    ensures MonthStart(y, a) <= MonthStart(y, b)
    decreases b - a
  {
    if a < b {
      MonthStartMonotone(y, a, b - 1);
    }
  }

  /** MonthFromTime: the month, counted from 0, that day `dwy` of the year
      falls in, searched from month `m` on. */
  function MonthFrom(y: int, dwy: int, m: int): (r: int)
    requires 0 <= m <= 11 && MonthStart(y, m) <= dwy < DaysInYear(y)
    ensures m <= r <= 11 && MonthStart(y, r) <= dwy < MonthStart(y, r + 1)
    decreases 11 - m
  {
    MonthsFillYear(y);
    if m == 11 || dwy < MonthStart(y, m + 1) then m else MonthFrom(y, dwy, m + 1)
  }

  /** What `getFullYear`, `getMonth` and `getDate` return. */
  datatype DateFields = DateFields(year: int, monthIndex: int, date: int)

  /** A month index in 0..11 and a date within that month's length. */
  predicate IsValidFields(f: DateFields) {
    0 <= f.monthIndex <= 11 && 1 <= f.date <= DaysInMonth(f.year, f.monthIndex + 1)
  }

  /** MakeDay: the day number of date `date` of month `month` (counted from 0)
      of `year`. Months outside 0..11 carry into the year, and dates beyond the
      month's length carry into the following months. */
  function MakeDay(year: int, month: int, date: int): int {
    var ym := year + month / 12;
    var mn := month % 12;
    DayFromYear(ym) + MonthStart(ym, mn) + date - 1
  }

  /** The getters applied to a day number. They always give valid fields, and
      those fields lead back to the same day. */
  function FieldsOfDay(day: int): (f: DateFields)
    ensures IsValidFields(f)
    ensures DayFromYear(f.year) <= day < DayFromYear(f.year + 1)
    ensures MakeDay(f.year, f.monthIndex, f.date) == day
  {
    var y := YearFromDay(day);
    DayFromYearStep(y);
    MonthsFillYear(y);
    var dwy := day - DayFromYear(y);
    var m := MonthFrom(y, dwy, 0);
    MonthLength(y, m);
    assert y + m / 12 == y && m % 12 == m;
    DateFields(y, m, dwy - MonthStart(y, m) + 1)
  }

  /** A day of the year lies in only one month. */
  lemma SameMonth(y: int, a: int, b: int, dwy: int)
    requires 0 <= a <= 11 && 0 <= b <= 11
    requires MonthStart(y, a) <= dwy < MonthStart(y, a + 1)
    requires MonthStart(y, b) <= dwy < MonthStart(y, b + 1)
    ensures a == b
  {
    if a < b {
      MonthStartMonotone(y, a + 1, b);
    } else if b < a {
      MonthStartMonotone(y, b + 1, a);
    }
  }

  /** Only one year's days include `day`. */
  lemma SameYear(a: int, b: int, day: int)
    requires DayFromYear(a) <= day < DayFromYear(a + 1)
    requires DayFromYear(b) <= day < DayFromYear(b + 1)
    ensures a == b
  {
    if a < b {
      DayFromYearMonotone(a + 1, b);
    } else if b < a {
      DayFromYearMonotone(b + 1, a);
    }
  }

  /** MakeDay of valid fields is the first day of the year plus the days
      before the month plus the date, less one. */
  lemma MakeDayOfValid(f: DateFields)
    requires IsValidFields(f)
    ensures var start := DayFromYear(f.year) + MonthStart(f.year, f.monthIndex);
      start <= MakeDay(f.year, f.monthIndex, f.date) < start + DaysInMonth(f.year, f.monthIndex + 1)
    ensures DayFromYear(f.year) <= MakeDay(f.year, f.monthIndex, f.date) < DayFromYear(f.year + 1)
  {
    var m := f.monthIndex;
    assert f.year + m / 12 == f.year && m % 12 == m;
    DayFromYearStep(f.year);
    MonthsFillYear(f.year);
    MonthLength(f.year, m);
    MonthStartMonotone(f.year, 0, m);
    MonthStartMonotone(f.year, m + 1, 12);
  }

  /** Distinct valid fields name distinct days. */
  lemma MakeDayInjective(f: DateFields, g: DateFields)
    requires IsValidFields(f) && IsValidFields(g)
    requires MakeDay(f.year, f.monthIndex, f.date) == MakeDay(g.year, g.monthIndex, g.date)
    ensures f == g
  {
    var day := MakeDay(f.year, f.monthIndex, f.date);
    MakeDayOfValid(f);
    MakeDayOfValid(g);
    SameYear(f.year, g.year, day);
    var dwy := day - DayFromYear(f.year);
    MonthLength(f.year, f.monthIndex);
    MonthLength(f.year, g.monthIndex);
    SameMonth(f.year, f.monthIndex, g.monthIndex, dwy);
  }

  /** Valid fields survive the trip through a day number. */
  lemma FieldsOfMakeDay(f: DateFields)
    requires IsValidFields(f)
    ensures FieldsOfDay(MakeDay(f.year, f.monthIndex, f.date)) == f
  {
    MakeDayInjective(FieldsOfDay(MakeDay(f.year, f.monthIndex, f.date)), f);
  }

  /** The day number a `Date` gets from `new Date(year, month, date)` in local
      time (section 21.4.2.1): years 0 to 99 mean 1900 to 1999. */
  function ConstructorDay(year: int, month: int, date: int): int {
    var yr := if 0 <= year <= 99 then 1900 + year else year;
    MakeDay(yr, month, date)
  }

  /** A day on or after the first day of year `y` falls in year `y` or later. */
  lemma YearOfLaterDay(day: int, y: int)
    requires DayFromYear(y) <= day
    ensures FieldsOfDay(day).year >= y
  {
    var r := FieldsOfDay(day).year;
    if r < y {
      DayFromYearMonotone(r + 1, y);
    }
  }

  /** A date in the years 0 to 99 is moved at least 1900 years later. */
  lemma TwoDigitYearMovesOn(year: int, month: int, date: int)
    requires 0 <= year <= 99 && 0 <= month <= 11 && 1 <= date
    ensures FieldsOfDay(ConstructorDay(year, month, date)).year >= 1900 + year
  {
    var y := 1900 + year;
    assert y + month / 12 == y && month % 12 == month;
    MonthStartMonotone(y, 0, month);
    YearOfLaterDay(MakeDay(y, month, date), y);
  }

  /** The furthest a time value may lie from the epoch: 8.64e15 milliseconds,
      which is 100,000,000 whole days either way (section 21.4.1.1). */
  const MaxTimeDays: int := 100_000_000

  /** TimeClip on whole days: a `Date` further from the epoch is invalid, and
      its getters give `NaN`. */
  predicate InTimeRange(day: int) {
    -MaxTimeDays <= day <= MaxTimeDays
  }

  /** `new Date(year, month, date)` read back through `getFullYear`,
      `getMonth` and `getDate`; `None` stands for the `NaN` of an invalid
      `Date`. */
  function ConstructorFields(year: int, month: int, date: int): Option<DateFields> {
    var day := ConstructorDay(year, month, date);
    if InTimeRange(day) then Some(FieldsOfDay(day)) else None
  }

  /** `new Date(year, month, date)` read back through the getters gives the
      same three numbers exactly when they name a real date outside the years
      0 to 99 whose day lies in the time range. */
  lemma ConstructorRoundTrip(year: int, month: int, date: int)
    ensures ConstructorFields(year, month, date) == Some(DateFields(year, month, date))
        <==> && IsValidFields(DateFields(year, month, date)) && !(0 <= year <= 99)
             && InTimeRange(MakeDay(year, month, date))
  {
    var f := DateFields(year, month, date);
    if IsValidFields(f) {
      if 0 <= year <= 99 {
        TwoDigitYearMovesOn(year, month, date);
      } else {
        FieldsOfMakeDay(f);
      }
    }
  }

  /** Every day the constructor builds from a year 0 to 9999, a month index
      -1 to 98 and a date 0 to 99 (what two-digit month and date fields can
      give) lies in the time range. */
  lemma SmallFieldsInRange(year: int, month: int, date: int)
    requires 0 <= year <= 9999 && -1 <= month <= 98 && 0 <= date <= 99
    ensures InTimeRange(ConstructorDay(year, month, date))
  {
    var yr := if 0 <= year <= 99 then 1900 + year else year;
    var ym := yr + month / 12;
    var mn := month % 12;
    assert -1 <= ym <= 10007;
    DayFromYearMonotone(-1, ym);
    DayFromYearMonotone(ym, 10007);
    DayFromYearIsEcma(-1);
    DayFromYearIsEcma(10007);
    MonthStartMonotone(ym, 0, mn);
    MonthStartMonotone(ym, mn, 12);
    MonthsFillYear(ym);
  }
}

=== FILE: file_card.dfy ===
/** The pure helpers of the file card: the size label, the date validation behind
    the "added on" label, and the link a card opens. */
module FileCard {
  import opened Wrappers
  import opened Text
  import opened Decimal
  import opened Files
  import opened EcmaDate

  const KiB: int := 1024
  const MiB: int := 1024 * 1024

  /** Which unit `formatFileSize` picks, with the exact amount in that unit;
      the rounding of `toFixed(1)` is not part of the model. */
  datatype SizeLabel =
    | NoSize                       // '-'
    | InBytes(text: string)        // the integer followed by ' B'
    | InKilobytes(amount: real)
    | InMegabytes(amount: real)

  /** `formatFileSize(bytes)`. A missing size and a size of 0 are both falsy. */
  function FormatFileSize(bytes: Option<int>): (r: SizeLabel)
    ensures r.NoSize? <==> bytes.None? || bytes.value == 0
    ensures r.InBytes? <==> bytes.Some? && bytes.value != 0 && bytes.value < KiB
    ensures r.InKilobytes? <==> bytes.Some? && KiB <= bytes.value < MiB
    ensures r.InMegabytes? <==> bytes.Some? && MiB <= bytes.value
    ensures r.InKilobytes? ==> 1.0 <= r.amount < 1024.0 && r.amount * (KiB as real) == bytes.value as real
    ensures r.InMegabytes? ==> 1.0 <= r.amount && r.amount * (MiB as real) == bytes.value as real
  {
    match bytes
    case None => NoSize
    case Some(n) =>
      if n == 0 then NoSize
      else if n < KiB then InBytes(IntToDecimal(n) + " B")
      else if n < MiB then InKilobytes(n as real / KiB as real)
      else InMegabytes(n as real / MiB as real)
  }

  /** A byte label is a decimal numeral without leading zeros, followed by
      " B", and the numeral reads back as the size. */
  lemma ByteLabelReadsBack(n: int)
    requires 0 < n < KiB
    ensures var t := FormatFileSize(Some(n)).text;
            && |t| >= 3 && t[|t| - 2..] == " B"
            && AllDigits(t[..|t| - 2]) && t[0] != '0'
            && DigitsValue(t[..|t| - 2]) == n
  {
    var digits := NatToDecimal(n);
    var t := digits + " B";
    assert FormatFileSize(Some(n)).text == t;
    assert t[..|t| - 2] == digits;
  }

  /** A calendar date as the card shows it, the month numbered from 1. */
  datatype CalendarDate = CalendarDate(year: int, month: int, day: int)

  /** A month from 1 to 12 and a day within that month's length. */
  predicate IsCalendarDate(d: CalendarDate) {
    1 <= d.month <= 12 && 1 <= d.day <= DaysInMonth(d.year, d.month)
  }

  /** `/^\d{4}-\d{2}-\d{2}$/`: four digits, a dash, two digits, a dash, two
      digits, and nothing else. */
  predicate IsIsoDateShape(s: string) {
    && |s| == 10
    && AllDigits(s[0..4]) && s[4] == '-'
    && AllDigits(s[5..7]) && s[7] == '-'
    && AllDigits(s[8..10])
  }

  /** `dateString.split('-')` followed by `parseInt` of each part. */
  function ParseIsoDate(s: string): CalendarDate
    requires IsIsoDateShape(s)
  {
    CalendarDate(DigitsValue(s[0..4]), DigitsValue(s[5..7]), DigitsValue(s[8..10]))
  }

  /** The `Date` built from a `YYYY-MM-DD` string is never outside TimeClip's
      range: its fields are at most four and two digits long. */
  lemma ParsedDateInRange(s: string)
    requires IsIsoDateShape(s)
    ensures var d := ParseIsoDate(s);
      ConstructorFields(d.year, d.month - 1, d.day).Some?
  {
    var d := ParseIsoDate(s);
    assert Pow10(4) == 10000 && Pow10(2) == 100;
    SmallFieldsInRange(d.year, d.month - 1, d.day);
  }

  /** `formatDate(dateString)`: the date to display, or `None` for `null`. A
      string is accepted exactly when it has the `YYYY-MM-DD` shape and names a
      real Gregorian date in a year from 100 on; the years 0000 to 0099 fail
      because the `Date` constructor moves them to 1900 to 1999. */
  function FormatDate(dateString: Option<string>): (r: Option<CalendarDate>)
    ensures r.Some? <==>
              && dateString.Some? && IsIsoDateShape(dateString.value)
              && IsCalendarDate(ParseIsoDate(dateString.value))
              && ParseIsoDate(dateString.value).year >= 100
    ensures r.Some? ==> r.value == ParseIsoDate(dateString.value)
  {
    if !Truthy(dateString) || !IsIsoDateShape(dateString.value) then None
    else
      var d := ParseIsoDate(dateString.value);
      ConstructorRoundTrip(d.year, d.month - 1, d.day);
      ParsedDateInRange(dateString.value);
      match ConstructorFields(d.year, d.month - 1, d.day)
      case None => None
      case Some(f) =>
        if f.year != d.year || f.monthIndex != d.month - 1 || f.date != d.day then None
        else Some(CalendarDate(f.year, f.monthIndex + 1, f.date))
  }

  /** Where the parts of `a-b-c` sit when `a` has four characters and `b`
      and `c` two each. */
  lemma IsoLayout(a: string, b: string, c: string)
    requires |a| == 4 && |b| == 2 && |c| == 2
    ensures var s := a + "-" + b + "-" + c;
      && |s| == 10 && s[0..4] == a && s[4] == '-'
      && s[5..7] == b && s[7] == '-' && s[8..10] == c
  {
    var s := a + "-" + b + "-" + c;
    assert s[0..4] == a;
    assert s[5..7] == b;
    assert s[8..10] == c;
  }

  /** A date written as `YYYY-MM-DD` with zero padding. */
  function IsoText(d: CalendarDate): (s: string)
    requires 0 <= d.year < 10000 && 0 <= d.month < 100 && 0 <= d.day < 100
    ensures IsIsoDateShape(s) && ParseIsoDate(s) == d
  {
    assert Pow10(2) == 100 && Pow10(4) == 10000;
    var yyyy, mm, dd := PaddedDigits(d.year, 4), PaddedDigits(d.month, 2), PaddedDigits(d.day, 2);
    IsoLayout(yyyy, mm, dd);
    yyyy + "-" + mm + "-" + dd
  }

  /** Every real date from the year 100 to 9999, written as `YYYY-MM-DD`, is
      accepted and shown as itself. */
  lemma IsoTextAccepted(d: CalendarDate)
    requires IsCalendarDate(d) && 100 <= d.year < 10000
    ensures FormatDate(Some(IsoText(d))) == Some(d)
  {
  }

  /** `file.downloadUrl || file.url || '#'`: the link a card opens. It is never
      empty, and it is one of the file's own addresses unless it has none. */
  function DownloadLink(f: FileEntry): (r: string)
    ensures r != ""
    ensures Truthy(f.downloadUrl) ==> r == f.downloadUrl.value
    ensures !Truthy(f.downloadUrl) && Truthy(f.url) ==> r == f.url.value
    ensures !Truthy(f.downloadUrl) && !Truthy(f.url) ==> r == "#"
  {
    Or(f.downloadUrl, Or(f.url, "#"))
  }

  /** What a card shows for one file: its title, size label, date label and
      link. */
  datatype CardView = CardView(
    title: Option<string>,
    size: SizeLabel,
    date: Option<CalendarDate>,
    link: string)

  /** The card of a file: `file.name` as the title, `formatFileSize(file.size)`,
      `file.date ? formatDate(file.date) : null` and the download link. */
  function Card(f: FileEntry): (v: CardView)
    ensures v.title == f.name
    ensures v.size == FormatFileSize(f.size)
    ensures v.size.NoSize? <==> f.size.None? || f.size.value == 0
    ensures !Truthy(f.date) ==> v.date == None
    ensures v.date.Some? <==>
              && f.date.Some? && IsIsoDateShape(f.date.value)
              && IsCalendarDate(ParseIsoDate(f.date.value))
              && ParseIsoDate(f.date.value).year >= 100
    ensures v.date.Some? ==> v.date.value == ParseIsoDate(f.date.value)
    ensures Truthy(f.downloadUrl) ==> v.link == f.downloadUrl.value
    ensures !Truthy(f.downloadUrl) && Truthy(f.url) ==> v.link == f.url.value
    ensures !Truthy(f.downloadUrl) && !Truthy(f.url) ==> v.link == "#"
  {
    var shown := if Truthy(f.date) then FormatDate(f.date) else None;
    CardView(f.name, FormatFileSize(f.size), shown, DownloadLink(f))
  }

  /** A file dated with a real date from the year 100 to 9999, written as
      `YYYY-MM-DD`, shows that date. */
  lemma CardShowsIsoDate(f: FileEntry, d: CalendarDate)
    requires IsCalendarDate(d) && 100 <= d.year < 10000
    requires f.date == Some(IsoText(d))
    ensures Card(f).date == Some(d)
  {
    IsoTextAccepted(d);
  }
}

=== FILE: files.dfy ===
/** Downloadable files attached to a product or a software record, and the
    defaulting of the optional `files` object into four lists. */
module Files {
  import opened Wrappers

  /** One downloadable file, with the fields the catalog pages read. */
  datatype FileEntry = FileEntry(
    name: Option<string>,
    url: Option<string>,
    downloadUrl: Option<string>,
    size: Option<int>,
    date: Option<string>)

  /** The four groups a record's files are sorted into. */
  datatype FileKind = Firmwares | Images | Documents | Videos

  /** A record's `files` object as stored: every group may be missing. */
  datatype FileGroups = FileGroups(
    firmwares: Option<seq<FileEntry>>,
    images: Option<seq<FileEntry>>,
    documents: Option<seq<FileEntry>>,
    videos: Option<seq<FileEntry>>)
  {
    function Group(kind: FileKind): Option<seq<FileEntry>> {
      match kind
      case Firmwares => firmwares
      case Images => images
      case Documents => documents
      case Videos => videos
    }
  }

  /** The normalised form: every group present, possibly empty. */
  datatype FileSet = FileSet(
    firmwares: seq<FileEntry>,
    images: seq<FileEntry>,
    documents: seq<FileEntry>,
    videos: seq<FileEntry>)
  {
    function Of(kind: FileKind): seq<FileEntry> {
      match kind
      case Firmwares => firmwares
      case Images => images
      case Documents => documents
      case Videos => videos
    }
  }

  const NoFiles := FileSet([], [], [], [])

  /** Fills in the four groups: a group is the record's list when the record has
      a `files` object holding that list, and empty otherwise. */
  function Normalise(files: Option<FileGroups>): (r: FileSet)
    ensures files.None? ==> r == NoFiles
    ensures forall kind: FileKind :: files.Some? && files.value.Group(kind).Some?
              ==> r.Of(kind) == files.value.Group(kind).value
    ensures forall kind: FileKind :: (files.None? || files.value.Group(kind).None?)
              ==> r.Of(kind) == []
  {
    match files
    case None => NoFiles
    case Some(g) =>
      FileSet(g.firmwares.GetOr([]), g.images.GetOr([]), g.documents.GetOr([]), g.videos.GetOr([]))
  }

  /** A normalised set written back as a `files` object. */
  function AsGroups(fs: FileSet): FileGroups {
    FileGroups(Some(fs.firmwares), Some(fs.images), Some(fs.documents), Some(fs.videos))
  }

  /** Normalising is idempotent: a set that is already complete comes back unchanged. */
  lemma NormaliseIdempotent(files: Option<FileGroups>)
    ensures Normalise(Some(AsGroups(Normalise(files)))) == Normalise(files)
  {
  }
}

=== FILE: product_search_api.dfy ===
/** The product search endpoint (`GET /api/products/search`) without its HTTP
    transport: a request's method and query parameters in, a status and a JSON
    body out. */
module ProductSearchApi {
  import opened Wrappers
  import opened Text
  import opened Seqs
  import opened Files
  import opened Products

  /** The parts of a request the handler reads: the HTTP method and the `q` and
      `category` query parameters, either of which may be absent. */
  datatype Request = Request(verb: string, q: Option<string>, category: Option<string>)

  /** The `_fileCounts` object added to each product. Images are not counted. */
  datatype FileCounts = FileCounts(firmwares: nat, documents: nat, videos: nat, totalDocuments: nat)

  /** A product with its `_fileCounts`; all other fields are the product's own. */
  datatype CountedProduct = CountedProduct(product: Product, fileCounts: FileCounts)

  datatype Body =
    | Failed(error: string)                  // `success: false`
    | Found(total: nat, query: string, category: string, products: seq<CountedProduct>)

  datatype Response = Response(status: int, body: Body) {
    /** The `success` field of the body. */
    predicate Succeeded() {
      body.Found?
    }
  }

  const MethodNotAllowed: string := "Method not allowed"
  const SearchFailed: string := "Erro ao buscar produtos"

  /** The counts of one product's normalised file groups. */
  function CountFiles(p: Product): (c: FileCounts)
    ensures c.firmwares == |ProductFiles(p).firmwares|
    ensures c.documents == |ProductFiles(p).documents|
    ensures c.videos == |ProductFiles(p).videos|
    ensures c.totalDocuments == c.documents + c.videos
    ensures p.files.None? ==> c == FileCounts(0, 0, 0, 0)
  {
    var fs := ProductFiles(p);
    FileCounts(|fs.firmwares|, |fs.documents|, |fs.videos|, |fs.documents| + |fs.videos|)
  }

  /** `filteredProducts.map(...)`: each product, in order, with its counts. */
  function WithCounts(ps: seq<Product>): (r: seq<CountedProduct>)
    ensures |r| == |ps|
    ensures forall i :: 0 <= i < |ps| ==> r[i].product == ps[i] && r[i].fileCounts == CountFiles(ps[i])
  {
    seq(|ps|, i requires 0 <= i < |ps| => CountedProduct(ps[i], CountFiles(ps[i])))
  }

  /** The handler, given the catalog `getAllProducts` would load. */
  function Handle(req: Request, catalog: seq<Product>): (resp: Response)
    ensures req.verb != "GET" ==> resp == Response(405, Failed(MethodNotAllowed))
    ensures req.verb == "GET" ==> (resp.status == 200 <==> resp.Succeeded())
    ensures req.verb == "GET" ==>
              (resp.status == 200 <==> SearchProducts(catalog, Or(req.q, ""), req.category).Success?)
    ensures resp.Succeeded() ==>
              var found := SearchProducts(catalog, Or(req.q, ""), req.category);
              && found.Success?
              && |resp.body.products| == resp.body.total == |found.value|
              && (forall i :: 0 <= i < |found.value| ==> resp.body.products[i].product == found.value[i])
              && resp.body.query == Or(req.q, "")
              && resp.body.category == Or(req.category, AllCategories)
    ensures resp.Succeeded() ==> forall i :: 0 <= i < |resp.body.products| ==>
              var c := resp.body.products[i].fileCounts;
              var fs := ProductFiles(resp.body.products[i].product);
              && c.totalDocuments == c.documents + c.videos
              && c.firmwares == |fs.firmwares| && c.documents == |fs.documents| && c.videos == |fs.videos|
    ensures req.verb == "GET" && resp.status != 200 ==> resp == Response(500, Failed(SearchFailed))
  {
    if req.verb != "GET" then Response(405, Failed(MethodNotAllowed))
    else
      var query := Or(req.q, "");
      match SearchProducts(catalog, query, req.category)
      case Failure(_) => Response(500, Failed(SearchFailed))
      case Success(found) =>
        var counted := WithCounts(found);
        Response(200, Found(|counted|, query, Or(req.category, AllCategories), counted))
  }

  /** A successful search response lists only products that pass the search,
      and every such product of the catalog, as often as the catalog holds it. */
  lemma ResponseListsSelection(req: Request, catalog: seq<Product>)
    requires req.verb == "GET"
    ensures Handle(req, catalog).Succeeded() ==>
              var products := Handle(req, catalog).body.products;
              var ps := seq(|products|, i requires 0 <= i < |products| => products[i].product);
              IsSelection(ps, catalog, p => ProductSelected(p, Or(req.q, ""), req.category))
  {
    if Handle(req, catalog).Succeeded() {
      var products := Handle(req, catalog).body.products;
      var ps := seq(|products|, i requires 0 <= i < |products| => products[i].product);
      var found := SearchProducts(catalog, Or(req.q, ""), req.category);
      assert ps == found.value;
    }
  }
}

=== FILE: products.dfy ===
/** The product catalog: loading product records from the data tree, searching
    them by model and category, looking one up, and listing its files. */
module Products {
  import opened Wrappers
  import opened Text
  import opened Seqs
  import opened Files
  import opened DataTree

  /** A product record. Fields the catalog code never reads are left out; the
      record is carried unchanged wherever it is returned. */
  datatype Product = Product(
    id: Option<string>,
    model: Option<string>,
    category: Option<string>,
    files: Option<FileGroups>)

  /** The category value that stands for "every category". */
  const AllCategories: string := "Todas"

  /** `getAllProducts`: the records of the `data/products` directory, or none
      when it does not exist. Only arrays count; a file holding one object adds
      nothing. */
  function GetAllProducts(root: Option<Listing<Product>>): (r: seq<Product>)
    ensures root.None? ==> r == []
    ensures forall p :: p in r ==> root.Some? && ListingProvides(root.value, p, DropObjects)
    ensures root.Some? && HealthyListing(root.value) ==>
              forall p :: ListingProvides(root.value, p, DropObjects) ==> p in r
  {
    match root
    case None => []
    case Some(l) =>
      var r := CollectListing(l, DropObjects);
      assert forall p :: p in r ==> ListingProvides(l, p, DropObjects) by {
        forall p | p in r ensures ListingProvides(l, p, DropObjects) {
          CollectedListingIsProvided(l, p, DropObjects);
        }
      }
      assert HealthyListing(l) ==> forall p :: ListingProvides(l, p, DropObjects) ==> p in r by {
        if HealthyListing(l) {
          forall p | ListingProvides(l, p, DropObjects) ensures p in r {
            ProvidedListingIsCollected(l, p, DropObjects);
          }
        }
      }
      r
  }

  /** `query && query.trim()`: the text filter applies only to a query with a
      non-whitespace character. */
  predicate QueryActive(query: string) {
    Trim(query) != ""
  }

  /** `category && category !== 'Todas'`. */
  predicate CategoryActive(category: Option<string>) {
    Truthy(category) && category.value != AllCategories
  }

  /** The model, lower-cased, contains the whole query, lower-cased but not trimmed. */
  predicate ModelMatches(p: Product, query: string) {
    p.model.Some? && Contains(Lower(p.model.value), Lower(query))
  }

  /** Exact, case-sensitive category equality. */
  predicate InCategory(p: Product, category: string) {
    p.category == Some(category)
  }

  /** A product passes both filters that are switched on. */
  predicate ProductSelected(p: Product, query: string, category: Option<string>) {
    && (QueryActive(query) ==> ModelMatches(p, query))
    && (CategoryActive(category) ==> InCategory(p, category.value))
  }

  /** A product without `model` makes the text filter throw a TypeError. */
  datatype SearchError = MissingModel

  predicate SomeModelMissing(catalog: seq<Product>) {
    exists i :: 0 <= i < |catalog| && catalog[i].model.None?
  }

  /** `searchProducts(query, category)` over the loaded catalog: the text filter
      on `model`, then the category filter. The result keeps the catalog's order
      and holds every selected product as often as the catalog does. */
  function SearchProducts(catalog: seq<Product>, query: string, category: Option<string>)
    : (r: Result<seq<Product>, SearchError>)
    ensures r.Failure? <==> QueryActive(query) && SomeModelMissing(catalog)
    ensures r.Success? ==> IsSelection(r.value, catalog, p => ProductSelected(p, query, category))
    ensures !QueryActive(query) && !CategoryActive(category) ==> r == Success(catalog)
  {
    var selected := p => ProductSelected(p, query, category);
    if QueryActive(query) && SomeModelMissing(catalog) then Failure(MissingModel)
    else if QueryActive(query) then
      var byModel := Filter(catalog, p => ModelMatches(p, query));
      if CategoryActive(category) then
        var c := category.value;
        var r := Filter(byModel, p => InCategory(p, c));
        SelectionCompose(r, byModel, catalog, p => ModelMatches(p, query), p => InCategory(p, c), selected);
        Success(r)
      else
        SelectionCongruent(byModel, catalog, p => ModelMatches(p, query), selected);
        Success(byModel)
    else if CategoryActive(category) then
      var c := category.value;
      var r := Filter(catalog, p => InCategory(p, c));
      SelectionCongruent(r, catalog, p => InCategory(p, c), selected);
      Success(r)
    else
      SelectionOfAll(catalog, selected);
      Success(catalog)
  }

  /** `'Todas'` switches the category filter off: it searches like no category. */
  lemma AllCategoriesMeansNoFilter(catalog: seq<Product>, query: string)
    ensures SearchProducts(catalog, query, Some(AllCategories)) == SearchProducts(catalog, query, None)
  {
  }

  /** The search is one `filter` with the conjunction of the active conditions. */
  lemma SearchIsOneFilter(catalog: seq<Product>, query: string, category: Option<string>)
    requires !(QueryActive(query) && SomeModelMissing(catalog))
    ensures SearchProducts(catalog, query, category)
              == Success(Filter(catalog, p => ProductSelected(p, query, category)))
  {
    var r := SearchProducts(catalog, query, category);
    SelectionIsFilter(r.value, catalog, p => ProductSelected(p, query, category));
  }

  /** Both `"ds"` and `" ds"` switch the text filter on, but only the first
      occurs in the lower-cased model `"ds2"`. */
  lemma PaddedQueryFacts(p: Product)
    requires p.model == Some("DS2")
    ensures QueryActive("ds") && QueryActive(" ds")
    ensures ModelMatches(p, "ds") && !ModelMatches(p, " ds")
  {
    var m := Lower("DS2");
    assert m == "ds2";
    assert Lower("ds") == "ds";
    assert Lower(" ds") == " ds";
    assert OccursAt(m, "ds", 0);
    assert !IsWhitespace("ds"[0]) && !IsWhitespace(" ds"[1]);
    forall i | 0 <= i <= |m| - 3
      ensures !OccursAt(m, " ds", i)
    {
      assert m[i] != ' ';
    }
  }

  /** The query is trimmed only to decide whether to filter: a padded query
      must match with its spaces, so `" ds"` misses a model `"DS2"` that
      `"ds"` finds. */
  lemma PaddedQueryIsNotTrimmed(p: Product)
    requires p.model == Some("DS2")
    ensures SearchProducts([p], "ds", None) == Success([p])
    ensures SearchProducts([p], " ds", None) == Success([])
  {
    PaddedQueryFacts(p);
    assert !SomeModelMissing([p]);
    assert [p][1..] == [];
    var plain := SearchProducts([p], "ds", None);
    SelectionIsFilter(plain.value, [p], x => ProductSelected(x, "ds", None));
    assert Filter([p], x => ProductSelected(x, "ds", None)) == [p];
    var padded := SearchProducts([p], " ds", None);
    SelectionIsFilter(padded.value, [p], x => ProductSelected(x, " ds", None));
    assert Filter([p], x => ProductSelected(x, " ds", None)) == [];
  }

  predicate HasModel(p: Product, model: string) {
    p.model == Some(model)
  }

  /** `getProductByModel`: the first product whose `model` equals the argument. */
  function GetProductByModel(catalog: seq<Product>, model: string): (r: Option<Product>)
    ensures r.None? <==> forall j :: 0 <= j < |catalog| ==> catalog[j].model != Some(model)
    ensures r.Some? ==> exists i ::
              IsFirstMatch(catalog, p => HasModel(p, model), i) && catalog[i] == r.value
  {
    Find(catalog, p => HasModel(p, model))
  }

  /** The lookup key of `getProductById` matches the `id` or the `model`. */
  predicate HasIdOrModel(p: Product, id: string) {
    p.id == Some(id) || p.model == Some(id)
  }

  /** `getProductById`: the first product whose `id` or `model` equals the argument. */
  function GetProductById(catalog: seq<Product>, id: string): (r: Option<Product>)
    ensures r.None? <==> forall j :: 0 <= j < |catalog| ==> !HasIdOrModel(catalog[j], id)
    ensures r.Some? ==> exists i ::
              IsFirstMatch(catalog, p => HasIdOrModel(p, id), i) && catalog[i] == r.value
  {
    Find(catalog, p => HasIdOrModel(p, id))
  }

  /** The lookup is one pass over both fields, not an `id` search followed by
      a `model` search: a product whose `model` is the key wins over a later
      product whose `id` is the key. */
  lemma ModelMatchBeforeIdMatch(a: Product, b: Product)
    requires a.id == Some("a") && a.model == Some("X") && b.id == Some("X")
    ensures GetProductById([a, b], "X") == Some(a)
    ensures GetProductById([a, b], "X").value.id != Some("X")
  {
    assert HasIdOrModel([a, b][0], "X");
  }

  /** A product found by model is also found by id when no product has that
      string as its `id`. */
  lemma ByModelIsById(catalog: seq<Product>, model: string)
    requires forall j :: 0 <= j < |catalog| ==> catalog[j].id != Some(model)
    ensures GetProductById(catalog, model) == GetProductByModel(catalog, model)
  {
    var byModel := p => HasModel(p, model);
    var byId := p => HasIdOrModel(p, model);
    var a := FirstIndex(catalog, byModel);
    if a.Some? {
      FirstMatchIsFirstIndex(catalog, byId, a.value);
    } else {
      assert forall j :: 0 <= j < |catalog| ==> !byId(catalog[j]);
    }
  }

  /** `getProductFiles`: the four file groups, each defaulting to empty. */
  function ProductFiles(p: Product): (r: FileSet)
    ensures p.files.None? ==> r == NoFiles
    ensures forall kind: FileKind :: p.files.Some? && p.files.value.Group(kind).Some?
              ==> r.Of(kind) == p.files.value.Group(kind).value
    ensures forall kind: FileKind :: (p.files.None? || p.files.value.Group(kind).None?)
              ==> r.Of(kind) == []
  {
    Normalise(p.files)
  }
}

=== FILE: seqs.dfy ===
/** The array operations the catalog code uses, `Array.prototype.filter` and
    `Array.prototype.find`, over sequences. */
module Seqs {
  import opened Wrappers

  /** `a` is obtained from `b` by deleting elements, keeping the order. */
  ghost predicate IsSubsequence<T>(a: seq<T>, b: seq<T>)
    decreases |b|
  {
    if a == [] then true
    else if b == [] then false
    else (a[0] == b[0] && IsSubsequence(a[1..], b[1..])) || IsSubsequence(a, b[1..])
  }

  lemma {:induction false} SubsequenceTransitive<T>(a: seq<T>, b: seq<T>, c: seq<T>)
    requires IsSubsequence(a, b) && IsSubsequence(b, c)
    ensures IsSubsequence(a, c)
    decreases |c|
  {
    if a != [] {
      if b[0] == c[0] && IsSubsequence(b[1..], c[1..]) {
        if a[0] == b[0] && IsSubsequence(a[1..], b[1..]) {
          SubsequenceTransitive(a[1..], b[1..], c[1..]);
        } else {
          SubsequenceTransitive(a, b[1..], c[1..]);
        }
      } else {
        SubsequenceTransitive(a, b, c[1..]);
      }
    }
  }

  /** Every sequence is a subsequence of itself. */
  lemma {:induction false} SubsequenceReflexive<T>(a: seq<T>)
    ensures IsSubsequence(a, a)
    decreases |a|
  {
    if a != [] {
      SubsequenceReflexive(a[1..]);
    }
  }

  /** Subsequences of two parts give a subsequence of the joined parts. */
  lemma {:induction false} SubsequenceConcat<T>(a1: seq<T>, b1: seq<T>, a2: seq<T>, b2: seq<T>)
    requires IsSubsequence(a1, b1) && IsSubsequence(a2, b2)
    ensures IsSubsequence(a1 + a2, b1 + b2)
    decreases |b1|
  {
    if a1 == [] {
      SubsequenceOfSuffix(a2, b1, b2);
      assert a1 + a2 == a2;
    } else if a1[0] == b1[0] && IsSubsequence(a1[1..], b1[1..]) {
      SubsequenceConcat(a1[1..], b1[1..], a2, b2);
      assert (a1 + a2)[1..] == a1[1..] + a2;
      assert (b1 + b2)[1..] == b1[1..] + b2;
    } else {
      SubsequenceConcat(a1, b1[1..], a2, b2);
      assert (b1 + b2)[1..] == b1[1..] + b2;
    }
  }

  /** A subsequence of a suffix is a subsequence of the whole. */
  lemma {:induction false} SubsequenceOfSuffix<T>(a: seq<T>, front: seq<T>, b: seq<T>)
    requires IsSubsequence(a, b)
    ensures IsSubsequence(a, front + b)
    decreases |front|
  {
    if front == [] {
      assert front + b == b;
    } else if a != [] {
      SubsequenceOfSuffix(a, front[1..], b);
      assert (front + b)[1..] == front[1..] + b;
    }
  }

  /** `r` holds exactly the elements of `xs` that satisfy `keep`: it keeps their
      order, holds nothing else, and holds each as often as `xs` does. */
  ghost predicate IsSelection<T(!new)>(r: seq<T>, xs: seq<T>, keep: T -> bool) {
    && IsSubsequence(r, xs)
    && (forall i :: 0 <= i < |r| ==> keep(r[i]))
    && (forall x :: multiset(r)[x] == if keep(x) then multiset(xs)[x] else 0)
  }

  /** `xs.filter(keep)`. */
  function Filter<T(==,!new)>(xs: seq<T>, keep: T -> bool): (r: seq<T>)
    ensures IsSelection(r, xs, keep)
    decreases |xs|
  {
    if xs == [] then []
    else
      assert xs == [xs[0]] + xs[1..];
      var rest := Filter(xs[1..], keep);
      if keep(xs[0]) then
        assert ([xs[0]] + rest)[1..] == rest;
        [xs[0]] + rest
      else rest
  }

  /** A subsequence holds no element more often than the sequence it comes from. */
  lemma {:induction false} SubsequenceMultiset<T>(a: seq<T>, b: seq<T>)
    requires IsSubsequence(a, b)
    ensures multiset(a) <= multiset(b)
    decreases |b|
  {
    if a != [] {
      assert b == [b[0]] + b[1..];
      if a[0] == b[0] && IsSubsequence(a[1..], b[1..]) {
        SubsequenceMultiset(a[1..], b[1..]);
        assert a == [a[0]] + a[1..];
      } else {
        SubsequenceMultiset(a, b[1..]);
      }
    }
  }

  /** Dropping the first element of a subsequence leaves a subsequence of the
      rest of the sequence it came from. */
  lemma {:induction false} SubsequenceDropFirst<T>(a: seq<T>, b: seq<T>)
    requires a != [] && IsSubsequence(a, b)
    ensures IsSubsequence(a[1..], b[1..])
    decreases |b|
  {
    if !(a[0] == b[0] && IsSubsequence(a[1..], b[1..])) {
      SubsequenceDropFirst(a, b[1..]);
      SubsequenceOfSuffix(a[1..], [b[1]], b[2..]);
      assert [b[1]] + b[2..] == b[1..];
    }
  }

  /** A selection is unique: whatever satisfies the description of `xs.filter(keep)`
      is `xs.filter(keep)`. */
  lemma {:induction false} SelectionIsFilter<T(!new)>(r: seq<T>, xs: seq<T>, keep: T -> bool)
    requires IsSelection(r, xs, keep)
    ensures r == Filter(xs, keep)
    decreases |xs|
  {
    if xs == [] {
      assert r == [];
    } else {
      var x, t := xs[0], xs[1..];
      assert xs == [x] + t;
      if keep(x) {
        assert multiset(r)[x] > 0;
        assert r != [];
        if r[0] != x {
          assert IsSubsequence(r, t);
          SubsequenceMultiset(r, t);
          assert false;
        }
        assert r == [x] + r[1..];
        SubsequenceDropFirst(r, xs);
        SelectionIsFilter(r[1..], t, keep);
      } else {
        assert x !in multiset(r);
        assert r != [] ==> r[0] != x;
        assert IsSubsequence(r, t);
        SelectionIsFilter(r, t, keep);
      }
    }
  }

  /** Selecting with `p` and then with `q` selects with their conjunction. */
  lemma SelectionCompose<T(!new)>(r: seq<T>, mid: seq<T>, xs: seq<T>,
                                  p: T -> bool, q: T -> bool, both: T -> bool)
    requires IsSelection(mid, xs, p) && IsSelection(r, mid, q)
    requires forall x :: both(x) == (p(x) && q(x))
    ensures IsSelection(r, xs, both)
  {
    SubsequenceTransitive(r, mid, xs);
    forall i | 0 <= i < |r| ensures both(r[i]) {
      assert multiset(r)[r[i]] > 0;
    }
  }

  /** Every sequence is its own selection by a predicate that holds on all of it. */
  lemma SelectionOfAll<T(!new)>(xs: seq<T>, keep: T -> bool)
    requires forall i :: 0 <= i < |xs| ==> keep(xs[i])
    ensures IsSelection(xs, xs, keep)
  {
    SubsequenceReflexive(xs);
    forall x | !keep(x) ensures multiset(xs)[x] == 0 {
      assert x !in xs;
    }
  }

  /** A selection by `p` is a selection by any predicate equal to `p`. */
  lemma SelectionCongruent<T(!new)>(r: seq<T>, xs: seq<T>, p: T -> bool, q: T -> bool)
    requires IsSelection(r, xs, p)
    requires forall x :: p(x) == q(x)
    ensures IsSelection(r, xs, q)
  {
  }

  /** Filtering with two predicates that agree everywhere gives the same result. */
  lemma {:induction false} FilterCongruent<T(!new)>(xs: seq<T>, p: T -> bool, q: T -> bool)
    requires forall x :: p(x) == q(x)
    ensures Filter(xs, p) == Filter(xs, q)
    decreases |xs|
  {
    if xs != [] {
      FilterCongruent(xs[1..], p, q);
    }
  }

  /** `xs.findIndex(p)`, with `None` for -1: the position of the first element
      satisfying `p`. */
  function FirstIndex<T>(xs: seq<T>, p: T -> bool): (r: Option<nat>)
    ensures r.Some? ==> r.value < |xs| && p(xs[r.value])
    ensures r.Some? ==> forall j :: 0 <= j < r.value ==> !p(xs[j])
    ensures r.None? <==> forall j :: 0 <= j < |xs| ==> !p(xs[j])
    decreases |xs|
  {
    if xs == [] then None
    else if p(xs[0]) then Some(0)
    else
      match FirstIndex(xs[1..], p)
      case None => None
      case Some(i) => Some(i + 1)
  }

  /** `xs.find(p) || null`: the first element satisfying `p`, if any. */
  function Find<T>(xs: seq<T>, p: T -> bool): (r: Option<T>)
    ensures r.None? <==> forall j :: 0 <= j < |xs| ==> !p(xs[j])
    ensures r.Some? ==> exists i :: IsFirstMatch(xs, p, i) && xs[i] == r.value
  {
    match FirstIndex(xs, p)
    case None => None
    case Some(i) =>
      assert IsFirstMatch(xs, p, i);
      Some(xs[i])
  }

  /** Position `i` holds the first element of `xs` that satisfies `p`. */
  ghost predicate IsFirstMatch<T>(xs: seq<T>, p: T -> bool, i: int) {
    0 <= i < |xs| && p(xs[i]) && forall j :: 0 <= j < i ==> !p(xs[j])
  }

  /** The first match is the one `FirstIndex` reports. */
  lemma FirstMatchIsFirstIndex<T>(xs: seq<T>, p: T -> bool, i: int)
    requires IsFirstMatch(xs, p, i)
    ensures FirstIndex(xs, p) == Some(i)
  {
  }
}

=== FILE: softwares.dfy ===
/** The software catalog: loading software records from the data tree,
    searching them by category and free text, looking one up, and listing its
    files. */
module Softwares {
  import opened Wrappers
  import opened Text
  import opened Seqs
  import opened Files
  import opened DataTree

  /** A software record. Fields the catalog code never reads are left out. */
  datatype Software = Software(
    id: Option<string>,
    name: Option<string>,
    title: Option<string>,
    description: Option<string>,
    version: Option<string>,
    category: Option<string>,
    files: Option<FileGroups>)

  /** `getAllSoftwares`: the records of the `data/softwares` directory, or none
      when it does not exist. A file holding a single object adds that object. */
  function GetAllSoftwares(root: Option<Listing<Software>>): (r: seq<Software>)
    ensures root.None? ==> r == []
    ensures forall s :: s in r ==> root.Some? && ListingProvides(root.value, s, KeepObjects)
    ensures root.Some? && HealthyListing(root.value) ==>
              forall s :: ListingProvides(root.value, s, KeepObjects) ==> s in r
  {
    match root
    case None => []
    case Some(l) =>
      var r := CollectListing(l, KeepObjects);
      assert forall s :: s in r ==> ListingProvides(l, s, KeepObjects) by {
        forall s | s in r ensures ListingProvides(l, s, KeepObjects) {
          CollectedListingIsProvided(l, s, KeepObjects);
        }
      }
      assert HealthyListing(l) ==> forall s :: ListingProvides(l, s, KeepObjects) ==> s in r by {
        if HealthyListing(l) {
          forall s | ListingProvides(l, s, KeepObjects) ensures s in r {
            ProvidedListingIsCollected(l, s, KeepObjects);
          }
        }
      }
      r
  }

  /** `software.name || software.title || ''`. */
  function DisplayName(s: Software): string {
    Or(s.name, Or(s.title, ""))
  }

  /** The search text: the query lower-cased and trimmed. */
  function Needle(query: string): string {
    Trim(Lower(query))
  }

  /** The record has a category equal to `category` when both are lower-cased. */
  predicate InCategory(s: Software, category: string) {
    Truthy(s.category) && Lower(s.category.value) == Lower(category)
  }

  /** The needle occurs in the lower-cased name (or title), description, version
      or category. */
  predicate MatchesText(s: Software, needle: string) {
    || Contains(Lower(DisplayName(s)), needle)
    || Contains(Lower(Or(s.description, "")), needle)
    || Contains(Lower(Or(s.version, "")), needle)
    || Contains(Lower(Or(s.category, "")), needle)
  }

  /** A record passes both filters that are switched on. */
  predicate SoftwareSelected(s: Software, query: string, category: Option<string>) {
    && (Truthy(category) ==> InCategory(s, category.value))
    && (Needle(query) != "" ==> MatchesText(s, Needle(query)))
  }

  /** `searchSoftwares(query, category)` over the loaded list: the category
      filter, then the text filter. The result keeps the list's order and holds
      every selected record as often as the list does. */
  function SearchSoftwares(all: seq<Software>, query: string, category: Option<string>): (r: seq<Software>)
    ensures IsSelection(r, all, s => SoftwareSelected(s, query, category))
    ensures query == "" && !Truthy(category) ==> r == all
  {
    var selected := s => SoftwareSelected(s, query, category);
    var needle := Needle(query);
    if query == "" && !Truthy(category) then
      assert needle == "";
      SelectionOfAll(all, selected);
      all
    else if Truthy(category) then
      var c := category.value;
      var byCategory := Filter(all, s => InCategory(s, c));
      if needle != "" then
        var r := Filter(byCategory, s => MatchesText(s, needle));
        SelectionCompose(r, byCategory, all, s => InCategory(s, c), s => MatchesText(s, needle), selected);
        r
      else
        SelectionCongruent(byCategory, all, s => InCategory(s, c), selected);
        byCategory
    else if needle != "" then
      var r := Filter(all, s => MatchesText(s, needle));
      SelectionCongruent(r, all, s => MatchesText(s, needle), selected);
      r
    else
      SelectionOfAll(all, selected);
      all
  }

  /** The search is one `filter` with the conjunction of the active conditions. */
  lemma SearchIsOneFilter(all: seq<Software>, query: string, category: Option<string>)
    ensures SearchSoftwares(all, query, category) == Filter(all, s => SoftwareSelected(s, query, category))
  {
    SelectionIsFilter(SearchSoftwares(all, query, category), all, s => SoftwareSelected(s, query, category));
  }

  /** Lower-casing first does not change whether the query is blank: the text
      filter is on exactly when the query has a non-whitespace character, the
      same test the product search makes. */
  lemma NeedleBlankIffQueryBlank(query: string)
    ensures Needle(query) == "" <==> Trim(query) == ""
  {
  }

  /** A query that is blank once trimmed applies no text filter: it searches
      like the empty query. */
  lemma BlankQueryIsNoQuery(all: seq<Software>, query: string, category: Option<string>)
    requires Needle(query) == ""
    ensures SearchSoftwares(all, query, category) == SearchSoftwares(all, "", category)
  {
    assert Needle("") == "";
    SearchIsOneFilter(all, query, category);
    SearchIsOneFilter(all, "", category);
    FilterCongruent(all, s => SoftwareSelected(s, query, category), s => SoftwareSelected(s, "", category));
  }

  /** The category comparison ignores case: searching for a category and for
      its lower-case spelling gives the same records. */
  lemma CategoryIgnoresCase(all: seq<Software>, query: string, category: string)
    ensures SearchSoftwares(all, query, Some(category)) == SearchSoftwares(all, query, Some(Lower(category)))
  {
    LowerIdempotent(category);
    assert Lower(category) == "" <==> category == "";
    SearchIsOneFilter(all, query, Some(category));
    SearchIsOneFilter(all, query, Some(Lower(category)));
    FilterCongruent(all, s => SoftwareSelected(s, query, Some(category)),
                    s => SoftwareSelected(s, query, Some(Lower(category))));
  }

  /** Unlike the product search, `'Todas'` is an ordinary category here: a
      record filed under another category is dropped when searching for it. */
  lemma AllCategoriesIsOrdinary(s: Software)
    requires s.category == Some("NVR")
    ensures SearchSoftwares([s], "", Some("Todas")) == []
  {
  }

  /** `getSoftwareById` matches the `id`, the `name` or the `title`. */
  predicate HasIdOrName(s: Software, id: string) {
    s.id == Some(id) || s.name == Some(id) || s.title == Some(id)
  }

  /** `getSoftwareById`: the first record whose `id`, `name` or `title` equals
      the argument. */
  function GetSoftwareById(all: seq<Software>, id: string): (r: Option<Software>)
    ensures r.None? <==> forall j :: 0 <= j < |all| ==> !HasIdOrName(all[j], id)
    ensures r.Some? ==> exists i ::
              IsFirstMatch(all, s => HasIdOrName(s, id), i) && all[i] == r.value
  {
    Find(all, s => HasIdOrName(s, id))
  }

  /** `getSoftwareFiles`: the four file groups, each defaulting to empty. */
  function SoftwareFiles(s: Software): (r: FileSet)
    ensures s.files.None? ==> r == NoFiles
    ensures forall kind: FileKind :: s.files.Some? && s.files.value.Group(kind).Some?
              ==> r.Of(kind) == s.files.value.Group(kind).value
    ensures forall kind: FileKind :: (s.files.None? || s.files.value.Group(kind).None?)
              ==> r.Of(kind) == []
  {
    Normalise(s.files)
  }
}

=== FILE: text.dfy ===
/** The string operations the catalog relies on: lower-casing, trimming,
    substring and suffix tests, and JavaScript truthiness of optional strings. */
module Text {
  import opened Wrappers

  /** `toLowerCase` restricted to ASCII: upper-case letters map to lower case,
      every other character is left alone. */
  function LowerChar(c: char): char {
    if 'A' <= c <= 'Z' then (c as int + 32) as char else c
  }

  function Lower(s: string): (r: string)
    ensures |r| == |s|
    ensures forall i :: 0 <= i < |s| ==> r[i] == LowerChar(s[i])
  {
    seq(|s|, i requires 0 <= i < |s| => LowerChar(s[i]))
  }

  /** Lower-casing twice is the same as lower-casing once. */
  lemma LowerIdempotent(s: string)
    ensures Lower(Lower(s)) == Lower(s)
  {
    assert forall i :: 0 <= i < |s| ==> Lower(Lower(s))[i] == Lower(s)[i];
  }

  /** The WhiteSpace and LineTerminator code points of ECMA-262 (section 12.2
      and 12.3), which `String.prototype.trim` removes. */
  predicate IsWhitespace(c: char) {
    var n := c as int;
    n == 0x09 || n == 0x0A || n == 0x0B || n == 0x0C || n == 0x0D || n == 0x20
    || n == 0xA0 || n == 0x1680 || (0x2000 <= n <= 0x200A) || n == 0x2028
    || n == 0x2029 || n == 0x202F || n == 0x205F || n == 0x3000 || n == 0xFEFF
  }

  /** The first position at or after `i` that does not hold whitespace, or
      the length of `s` when there is none. */
  function ContentStart(s: string, i: nat): (k: nat)
    requires i <= |s|
    ensures i <= k <= |s|
    ensures forall j :: i <= j < k ==> IsWhitespace(s[j])
    ensures k == |s| || !IsWhitespace(s[k])
    decreases |s| - i
  {
    if i == |s| || !IsWhitespace(s[i]) then i else ContentStart(s, i + 1)
  }

  /** The end of the content in `s[lo..e]`: the smallest position after which
      only whitespace follows up to `e`, and never below `lo`. */
  function ContentEnd(s: string, lo: nat, e: nat): (k: nat)
    requires lo <= e <= |s|
    ensures lo <= k <= e
    ensures forall j :: k <= j < e ==> IsWhitespace(s[j])
    ensures k == lo || !IsWhitespace(s[k - 1])
    decreases e - lo
  {
    if e == lo || !IsWhitespace(s[e - 1]) then e else ContentEnd(s, lo, e - 1)
  }

  /** `String.prototype.trim`: the string without its leading and trailing
      whitespace. It is empty exactly when the string is all whitespace. */
  function Trim(s: string): (r: string)
    ensures r == [] <==> forall i :: 0 <= i < |s| ==> IsWhitespace(s[i])
    ensures r != [] ==> !IsWhitespace(r[0]) && !IsWhitespace(r[|r| - 1])
    ensures Contains(s, r)
    ensures exists k, e :: StripsTo(s, r, k, e)
  {
    var k := ContentStart(s, 0);
    var e := ContentEnd(s, k, |s|);
    assert OccursAt(s, s[k..e], k);
    assert StripsTo(s, s[k..e], k, e);
    s[k..e]
  }

  /** `r` is `s[k..e]`, and only whitespace lies before `k` and from `e` on:
      nothing but leading and trailing whitespace was removed. */
  predicate StripsTo(s: string, r: string, k: int, e: int) {
    && 0 <= k <= e <= |s| && r == s[k..e]
    && (forall j :: 0 <= j < k ==> IsWhitespace(s[j]))
    && (forall j :: e <= j < |s| ==> IsWhitespace(s[j]))
  }

  /** `text.includes(part)`: `part` occurs in `text` at some offset. The empty
      string occurs in every string. */
  predicate Contains(text: string, part: string) {
    exists i :: 0 <= i <= |text| - |part| && OccursAt(text, part, i)
  }

  /** `part` occurs in `text` starting at offset `i`. */
  predicate OccursAt(text: string, part: string, i: int) {
    0 <= i <= |text| - |part| && text[i..i + |part|] == part
  }

  /** `s.endsWith(suffix)`. */
  predicate EndsWith(s: string, suffix: string) {
    |suffix| <= |s| && s[|s| - |suffix|..] == suffix
  }

  /** A string field that may be missing is truthy when present and non-empty. */
  predicate Truthy(v: Option<string>) {
    v.Some? && v.value != ""
  }

  /** `v || fallback` for a string field that may be missing. */
  function Or(v: Option<string>, fallback: string): string {
    if Truthy(v) then v.value else fallback
  }
}

=== FILE: wrappers.dfy ===
/** Optional values and results with an error, standing in for JavaScript's
    `undefined`/`null` and for exceptions. */
module Wrappers {

  /** A value that may be missing (`undefined` or `null` in the source). */
  datatype Option<+T> = None | Some(value: T) {

    /** The value when present, `default` otherwise. */
    function GetOr(default: T): T {
      match this
      case Some(v) => v
      case None => default
    }
  }

  /** The outcome of a computation that may throw. */
  datatype Result<+T, +E> = Success(value: T) | Failure(error: E)
}
